=== FILE: README.md ===
# biztime request handlers, modelled in Dafny

biztime is a small bookkeeping API with two Express routers: one over
`companies`, one over `invoices`. This project models both routers'
request handling against an abstract two-table store. HTTP and SQL
plumbing are stripped away.

- `tables.dfy` holds the store and the shared shapes. The store is
  `Db(companies, invoices)`: two maps keyed by primary key. A company row is
  `(name, description)`. An invoice row is
  `(comp_code, amt, paid, add_date, paid_date)`. Every handler raises one
  of two errors: `NotFound(message)` (status 404) or `StoreFailure` (whatever
  the store throws). A handler returns a `Reply`: the result (a body with
  its HTTP status, or an error) together with the store it leaves behind.
  `Rows` stands for a SELECT's row list. The store picks the order, and every
  key appears exactly once.
- `companies.dfy` models the five company routes as store transitions.
- `invoices.dfy` models the five invoice routes, the `paid_date`
  transition and the join reshape. It also states the intended payment
  rule as two states with transitions, and relates the code to it.

Outside inputs become parameters:
- the clock read by `new Date()` is `now`;
- the slug library is `slugify`, and nothing is proved about its output;
- the store's id sequence is `nextId`, and its column defaults are `Defaults`;
- the store's cast of the `:id` path text to an integer is `coerce`;
- what the foreign key of `invoices.comp_code` does on a company delete is
  `onDelete`: refuse while invoices reference the company (`Restrict`), or
  delete them with it (`Cascade`). Invoice create enforces the same key.

The model follows the code as written. In two places the code does not do
what it evidently means to:

- **The join reshape.** GET /invoices/:id evidently means to nest the
  owning company's code under `company.code`, taken from `comp_code`, and to
  drop `comp_code` from the top level. The join never selects `comp_code`,
  so the nested `code` is undefined (`None` here). As written, the spread
  also keeps the joined `code`, `name` and `description` at the top level.
  `Invoices.Get` states exactly this.
- **The paid-date invariant.** The intended payment rule is that an invoice
  carries a `paid_date` exactly when it is paid. The update does not
  maintain this. When the requested `paid` is neither `true` nor `false`,
  the update writes that value back and keeps the old date.
  `Invoices.OtherPaidKeepsDate` shows a paid invoice then ends up not paid
  but still dated. The invariant is guaranteed only for boolean updates
  (`Invoices.BooleanUpdateFollowsPaymentStates`).

## Model

| member | source | states |
|---|---|---|
| Tables.Rows | routes/companies.js:32-37 | the rows a SELECT returns: every selected key exactly once, nothing else, as many rows as keys |
| Companies.List | routes/companies.js:10-17 | GET /companies answers 200 with exactly the `(code, name)` of every stored company, one row per company, and leaves the store unchanged |
| Companies.InvoicesOf | routes/companies.js:32-37 | the invoice-id query (ids whose `comp_code` is the code); no contract of its own: `Companies.Get` states what the handler returns from it, and `Companies.NoInvoicesOf` and `Companies.DeleteKeepsReferential` use it |
| Companies.NoInvoicesOf | routes/companies.js:32-37 | helper about `Companies.InvoicesOf` alone: the selected set is empty exactly when no invoice passes the filter; `Companies.Get` and `Companies.Delete` rely on it |
| Companies.Get | routes/companies.js:21-52 | GET /companies/:code is read-only in both outcomes; an absent code gives NotFound "No such company: " + code with status 404; a present code gives that company's code, name and description and the ids of exactly its invoices, each once; the list is empty exactly when it owns none |
| Companies.Create | routes/companies.js:84-94 | POST /companies inserts `slug(name) -> (name, description)` and answers 201 with that row, touching no other company and no invoice; a slug that is already a key is a store failure with the store unchanged |
| Companies.Update | routes/companies.js:97-111 | PUT /companies/:code on an absent code gives NotFound "Company not found" (status 404) with the store unchanged; on a present code replaces name and description, keeps the code and every other company and all invoices |
| Companies.Delete | routes/companies.js:114-127 | DELETE /companies/:code on an absent code gives NotFound "Company not found" with the store unchanged; it goes through exactly when the action is `Cascade` or no invoice belongs to the company, and otherwise is a store failure with the store unchanged; a delete that goes through removes exactly that company key, keeps every invoice of other companies unchanged, removes the company's own invoices, and answers `{status: "deleted"}` |
| Companies.CreateThenGet | routes/companies.js:84-94 | a created company reads back under the slug of its name with the submitted name and description; in a store whose foreign keys hold, its invoice list is empty |
| Companies.UpdateThenGet | routes/companies.js:97-111 | after an update a read returns the new name and description under the same code, listing the same set of invoice ids |
| Companies.DeleteThenGet | routes/companies.js:114-127 | after a delete that went through, under either foreign-key action, a read answers "No such company: " + code |
| Companies.WritesKeepReferential | routes/companies.js:84-111 | creating or updating a company keeps every invoice pointing at a stored company |
| Companies.DeleteKeepsReferential | routes/companies.js:114-127 | under either foreign-key action a company delete keeps every invoice pointing at a stored company, and one that goes through leaves no invoice of that company |
| Tables.Truthy | routes/invoices.js:86 | the JavaScript truthiness of the stored `paid` in the `!existingInvoice.rows[0].paid` test: only `true` is truthy, NULL and `false` are falsy; no contract of its own: `Invoices.Update`, `Invoices.BooleanUpdateFollowsPaymentStates` and `Invoices.OtherPaidKeepsDate` state its effect |
| Invoices.Missing | routes/invoices.js:39 | the 404 error of the get, update and delete invoice routes: NotFound "Invoice not found with id " + the raw id text, status 404 |
| Invoices.List | routes/invoices.js:9-16 | GET /invoices answers 200 with exactly the `(id, comp_code)` of every stored invoice, one row per invoice, and leaves the store unchanged |
| Invoices.Join | routes/invoices.js:29-40 | the inner join of the invoice with its company, empty when either is missing; no contract of its own: `Invoices.Get` states its outcomes |
| Invoices.Reshape | routes/invoices.js:42-46 | the reshape of the joined row as written; no contract of its own: `Invoices.Get` states the shape it produces (undefined nested `code`, company columns kept at the top level) |
| Invoices.Get | routes/invoices.js:26-52 | GET /invoices/:id is read-only; it gives NotFound "Invoice not found with id " + id exactly when the id is absent or its company is missing (inner join); otherwise the invoice's own fields, a nested `company` with the owner's name and description and an undefined `code`, and the owner's `code`, `name`, `description` still at the top level |
| Invoices.Create | routes/invoices.js:55-67 | POST /invoices adds one invoice under the fresh id with the given `comp_code`, `amt` and the store's defaults and answers 201 with it, leaving every other invoice and all companies unchanged; an unknown company or a taken id is a store failure with the store unchanged |
| Invoices.PaidDate | routes/invoices.js:84-92 | the three-way `paid_date` rule; no contract of its own: `Invoices.Update` says it is the date written, and `Invoices.BooleanUpdateFollowsPaymentStates`, `Invoices.OtherPaidKeepsDate`, `Invoices.PaidTwiceKeepsFirstDate` and `Invoices.Lifecycle` state its behaviour |
| Invoices.Update | routes/invoices.js:70-103 | PUT /invoices/:id on an absent id gives NotFound with no write; otherwise writes the requested `amt` and `paid` and the derived `paid_date`, keeps `id`, `comp_code` and `add_date`, touches no other invoice and no company, and answers with the written row |
| Invoices.Delete | routes/invoices.js:106-119 | DELETE /invoices/:id on an absent id gives NotFound with the store unchanged; otherwise removes exactly that invoice and answers `{status: "deleted"}` |
| Invoices.BooleanUpdateFollowsPaymentStates | routes/invoices.js:84-92 | on an invoice with a date exactly when paid, an update with `paid` exactly true or false keeps that rule and moves between the two intended payment states: unpaid to paid takes `now`, paid to unpaid clears the date, same-state updates keep the date |
| Invoices.OtherPaidKeepsDate | routes/invoices.js:84-96 | an update whose `paid` is neither true nor false keeps the stored date and writes a falsy `paid`, so the invariant survives exactly when there was no date |
| Invoices.PaidTwiceKeepsFirstDate | routes/invoices.js:84-92 | marking an invoice paid twice leaves the date of the first transition (`now` of the first call when it was unpaid); with the same amount the second update changes nothing |
| Invoices.Lifecycle | routes/invoices.js:55-103 | a new invoice with the store's defaults is unpaid without a date; paying it sets the date, paying again keeps it, unpaying clears it |
| Invoices.CreateThenGet | routes/invoices.js:26-67 | a created invoice reads back with its amount, joined with its company's name and description |
| Invoices.DeleteThenGet | routes/invoices.js:26-52 | after a successful delete a read answers "Invoice not found with id " + id |
| Invoices.WritesKeepReferential | routes/invoices.js:55-119 | no invoice handler leaves an invoice pointing at a company that is not stored |

## Left out

- The Express router, `req`/`res`, the `next(err)` pipeline and JSON
  serialization are not modelled. An ExpressError is kept only for its
  message and its 404. The error responder (`app.js`, not part of this
  model) gets status 500 here for store errors.
- SQL text, the `db` module and the driver are not modelled. Only what the
  handlers rely on is kept: a row is present or absent, RETURNING gives the
  row back, and the invoice join is an inner join.
- Schema behaviour is not shown in the repository. This covers NOT NULL
  columns, the type of `description`, and the foreign-key action on a
  company delete. The model takes one schema: `invoices.comp_code` is a
  foreign key (enforced on invoice create), and its delete action is the
  `onDelete` parameter (restrict or cascade). Column checks such as a
  positive `amt` are not modelled.
- Companies.Create: a missing `name` is not modelled, because what the slug
  library does with it is not shown; `name` is always a string here.
- Companies.Update: a missing `name` is not modelled; the UPDATE would write
  NULL, or fail on a NOT NULL column the schema may have. `name` is always a
  string here. An omitted `description` is `None` and is written as NULL,
  as the code does.
- Invoices.Update: a write that matches no row is not modelled. That would
  need a delete between the handler's two queries, so it is a concurrency
  case.
- Concurrency between the two queries of GET /companies/:code and of
  PUT /invoices/:id is not modelled; each handler is one atomic step.
- `amt` is an `int`, not a float. Amounts that are missing or not numbers
  are not modelled.
- The driver's coercion of a non-boolean `paid` (such as the string
  `"yes"`) is not modelled. `PaidOther` stands for an omitted or null
  `paid`: it is stored as NULL and reads back as falsy.
- Invoices.OtherPaidKeepsDate: covers only an omitted or null `paid`. A value
  the driver coerces to true (such as `"yes"` or `1`) is not `PaidTrue` in
  the code's `paid === true` test. On an unpaid invoice it would give a paid
  invoice with no date: a second way the invariant breaks, not modelled.
- Tables.Rows: picks one row order per key set, so two reads of the same
  rows list them in the same order. The source's SELECTs have no ORDER BY
  and promise no order. No contract here depends on the order.
- The commented-out alternate GET /companies/:code (routes/companies.js:54-81)
  is not modelled: it is dead code.
- `slugify` internals are not modelled: it is an external library.

=== FILE: companies.dfy ===
/**
 The companies router: list, get with invoice ids, create, update and delete,
 each a transition of the store.
 */
module Companies {
  import opened Wrappers
  import opened Tables

  /** One element of the GET /companies list: `{code, name}`. */
  datatype Summary = Summary(code: Code, name: string)

  /** A company as RETURNING `code, name, description` gives it back. */
  datatype Record = Record(code: Code, name: string, description: Option<string>)

  /** The body of GET /companies/:code: the company row plus the ids of its invoices. */
  datatype Detail = Detail(code: Code, name: string, description: Option<string>, invoices: seq<InvoiceId>)

  const Missing: Error := NotFound("Company not found")

  /** The ids the second query of GET /companies/:code selects. */
  function InvoicesOf(db: Db, code: Code): set<InvoiceId> {
    set id | id in db.invoices && db.invoices[id].compCode == code
  }

  /** No invoice belongs to `code` exactly when the second query selects nothing. */
  lemma NoInvoicesOf(db: Db, code: Code)
    ensures InvoicesOf(db, code) == {} <==>
      forall id :: id in db.invoices ==> db.invoices[id].compCode != code
  {
    if forall id :: id in db.invoices ==> db.invoices[id].compCode != code {
      assert forall id :: id !in InvoicesOf(db, code);
    } else {
      var id :| id in db.invoices && db.invoices[id].compCode == code;
      assert id in InvoicesOf(db, code);
    }
  }

  /** GET /companies */
  ghost function List(db: Db): (out: Reply<seq<Summary>>)
    ensures out.db == db
    ensures out.result.Ok? && out.result.status == 200
    ensures forall row :: row in out.result.body <==>
      row.code in db.companies && row.name == db.companies[row.code].name
    ensures |out.result.body| == |db.companies|
    ensures forall i, j :: 0 <= i < j < |out.result.body| ==>
      out.result.body[i].code != out.result.body[j].code
  {
    var codes := Rows(db.companies.Keys);
    var rows := seq(|codes|, i requires 0 <= i < |codes| => Summary(codes[i], db.companies[codes[i]].name));
    assert forall row: Summary :: row.code in db.companies && row.name == db.companies[row.code].name ==> row in rows by {
      forall row: Summary | row.code in db.companies && row.name == db.companies[row.code].name
        ensures row in rows
      {
        var i :| 0 <= i < |codes| && codes[i] == row.code;
        assert rows[i] == row;
      }
    }
    Reply(Ok(200, rows), db)
  }

  /** GET /companies/:code */
  ghost function Get(db: Db, code: Code): (out: Reply<Detail>)
    ensures out.db == db
    ensures code !in db.companies <==> out.result == Fail(NotFound("No such company: " + code))
    ensures out.result.Fail? ==> out.result.error.Status() == 404
    ensures code in db.companies ==>
      && out.result.Ok? && out.result.status == 200
      && out.result.body.code == code
      && out.result.body.name == db.companies[code].name
      && out.result.body.description == db.companies[code].description
      && (forall id :: id in out.result.body.invoices <==>
            id in db.invoices && db.invoices[id].compCode == code)
      && (forall i, j :: 0 <= i < j < |out.result.body.invoices| ==>
            out.result.body.invoices[i] != out.result.body.invoices[j])
      && (out.result.body.invoices == [] <==>
            forall id :: id in db.invoices ==> db.invoices[id].compCode != code)
  {
    var ids := Rows(InvoicesOf(db, code));
    if code !in db.companies then
      Reply(Fail(NotFound("No such company: " + code)), db)
    else
      var row := db.companies[code];
      assert ids == [] <==> InvoicesOf(db, code) == {};
      NoInvoicesOf(db, code);
      Reply(Ok(200, Detail(code, row.name, row.description, ids)), db)
  }

  /**
   POST /companies. `slugify` stands for the slug library called with
   `lower: true`; the store refuses a duplicate primary key.
   */
  function Create(db: Db, slugify: string -> Code, name: string, description: Option<string>): (out: Reply<Record>)
    ensures slugify(name) in db.companies ==> out == Reply(Fail(StoreFailure), db)
    ensures slugify(name) !in db.companies ==>
      && out.result == Ok(201, Record(slugify(name), name, description))
      && out.db.invoices == db.invoices
      && out.db.companies.Keys == db.companies.Keys + {slugify(name)}
      && out.db.companies[slugify(name)] == Company(name, description)
      && SameExcept(db.companies, out.db.companies, slugify(name))
  {
    var code := slugify(name);
    if code in db.companies then
      Reply(Fail(StoreFailure), db)
    else
      Reply(Ok(201, Record(code, name, description)),
            db.(companies := db.companies[code := Company(name, description)]))
  }

  /** PUT /companies/:code */
  function Update(db: Db, code: Code, name: string, description: Option<string>): (out: Reply<Record>)
    ensures code !in db.companies ==> out == Reply(Fail(Missing), db)
    ensures out.result.Fail? ==> out.result.error.Status() == 404
    ensures code in db.companies ==>
      && out.result == Ok(200, Record(code, name, description))
      && out.db.invoices == db.invoices
      && out.db.companies.Keys == db.companies.Keys
      && out.db.companies[code] == Company(name, description)
      && SameExcept(db.companies, out.db.companies, code)
  {
    if code !in db.companies then
      Reply(Fail(Missing), db)
    else
      Reply(Ok(200, Record(code, name, description)),
            db.(companies := db.companies[code := Company(name, description)]))
  }

  /**
   The action of the foreign key `invoices.comp_code` when its company is
   deleted: refuse while invoices still reference it (RESTRICT or NO
   ACTION), or delete those invoices with it (CASCADE).
   */
  datatype OnDelete = Restrict | Cascade

  /** DELETE /companies/:code, under the foreign-key action `onDelete`. */
  function Delete(db: Db, code: Code, onDelete: OnDelete): (out: Reply<Deleted>)
    ensures code !in db.companies ==> out == Reply(Fail(Missing), db)
    ensures code in db.companies ==>
      (out.result.Ok? <==>
         onDelete.Cascade? || !(exists id :: id in db.invoices && db.invoices[id].compCode == code))
    ensures code in db.companies && !out.result.Ok? ==> out == Reply(Fail(StoreFailure), db)
    ensures code in db.companies && out.result.Ok? ==>
      && out.result == Ok(200, Deleted)
      && out.db.companies.Keys == db.companies.Keys - {code}
      && SameExcept(db.companies, out.db.companies, code)
      && (forall id :: id in out.db.invoices <==>
            id in db.invoices && db.invoices[id].compCode != code)
      && (forall id :: id in out.db.invoices ==> out.db.invoices[id] == db.invoices[id])
  {
    if code !in db.companies then
      Reply(Fail(Missing), db)
    else if onDelete == Restrict then
      NoInvoicesOf(db, code);
      if InvoicesOf(db, code) != {} then
        Reply(Fail(StoreFailure), db)
      else
        Reply(Ok(200, Deleted), db.(companies := db.companies - {code}))
    else
      var kept := map id | id in db.invoices && db.invoices[id].compCode != code :: db.invoices[id];
      Reply(Ok(200, Deleted), db.(companies := db.companies - {code}, invoices := kept))
  }

  /**
   A company just created reads back with the submitted name and
   description under the slug of its name; in a store that keeps its foreign
   keys it owns no invoice yet.
   */
  lemma CreateThenGet(db: Db, slugify: string -> Code, name: string, description: Option<string>)
    requires Create(db, slugify, name, description).result.Ok?
    ensures var got := Get(Create(db, slugify, name, description).db, slugify(name)).result;
      && got.Ok?
      && got.body.code == slugify(name)
      && got.body.name == name
      && got.body.description == description
      && (Referential(db) ==> got.body.invoices == [])
  {
  }

  /** An update is seen by the next read, and the code stays the same. */
  lemma UpdateThenGet(db: Db, code: Code, name: string, description: Option<string>)
    requires code in db.companies
    ensures var got := Get(Update(db, code, name, description).db, code).result;
      && got.Ok?
      && got.body.code == code
      && got.body.name == name
      && got.body.description == description
      && forall id :: id in got.body.invoices <==> id in Get(db, code).result.body.invoices
  {
  }

  /** After a successful delete the company is gone: a read says so. */
  lemma DeleteThenGet(db: Db, code: Code, onDelete: OnDelete)
    requires Delete(db, code, onDelete).result.Ok?
    ensures Get(Delete(db, code, onDelete).db, code).result == Fail(NotFound("No such company: " + code))
  {
  }

  /** Creating and updating companies never breaks the foreign key of the invoices. */
  lemma WritesKeepReferential(db: Db, slugify: string -> Code, code: Code, name: string, description: Option<string>)
    requires Referential(db)
    ensures Referential(Create(db, slugify, name, description).db)
    ensures Referential(Update(db, code, name, description).db)
  {
  }

  /**
   Under either foreign-key action every company delete keeps the foreign key
   of the invoices, and one that goes through leaves no invoice of the
   deleted company behind.
   */
  lemma DeleteKeepsReferential(db: Db, code: Code, onDelete: OnDelete)
    requires Referential(db)
    ensures Referential(Delete(db, code, onDelete).db)
    ensures Delete(db, code, onDelete).result.Ok? ==> InvoicesOf(Delete(db, code, onDelete).db, code) == {}
  {
  }
}

=== FILE: invoices.dfy ===
/**
 The invoices router: list, get joined with the owning company, create,
 update with the paid-date transition, and delete.

 The path parameter `:id` arrives as text; `coerce` stands for the store's
 cast of that text to the integer key (`None` when the cast fails, which the
 store reports as an error). Not-found messages quote the text as it came.
 */
module Invoices {
  import opened Wrappers
  import opened Tables

  /** One element of the GET /invoices list: `{id, comp_code}`. */
  datatype Summary = Summary(id: InvoiceId, compCode: Code)

  /** An invoice as RETURNING `id, comp_code, amt, paid, add_date, paid_date` gives it back. */
  datatype Record = Record(id: InvoiceId, compCode: Code, amt: int, paid: Paid, addDate: Date, paidDate: Option<Date>)

  /**
   The flat row of the join in GET /invoices/:id: the invoice's own columns
   and the company's `code`, `name` and `description`. It has no `comp_code`
   column.
   */
  datatype JoinedRow = JoinedRow(
    id: InvoiceId, amt: int, paid: Paid, addDate: Date, paidDate: Option<Date>,
    code: Code, name: string, description: Option<string>)

  /** The nested `company` object; a `code` of `None` is JavaScript `undefined`. */
  datatype CompanyPart = CompanyPart(code: Option<Code>, name: string, description: Option<string>)

  /**
   The body of GET /invoices/:id: every column of the joined row, spread at
   the top level, plus the nested `company`.
   */
  datatype Detail = Detail(
    id: InvoiceId, amt: int, paid: Paid, addDate: Date, paidDate: Option<Date>,
    code: Code, name: string, description: Option<string>,
    company: CompanyPart)

  /** The column defaults the store fills in on insert. */
  datatype Defaults = Defaults(paid: Paid, addDate: Date, paidDate: Option<Date>)

  /** The not-found error of the invoice routes, which answers 404. */
  function Missing(idText: string): (e: Error)
    ensures e.NotFound? && e.Status() == 404
  {
    NotFound("Invoice not found with id " + idText)
  }

  function AsRecord(id: InvoiceId, inv: Invoice): Record {
    Record(id, inv.compCode, inv.amt, inv.paid, inv.addDate, inv.paidDate)
  }

  /** GET /invoices */
  ghost function List(db: Db): (out: Reply<seq<Summary>>)
    ensures out.db == db
    ensures out.result.Ok? && out.result.status == 200
    ensures forall row :: row in out.result.body <==>
      row.id in db.invoices && row.compCode == db.invoices[row.id].compCode
    ensures |out.result.body| == |db.invoices|
    ensures forall i, j :: 0 <= i < j < |out.result.body| ==>
      out.result.body[i].id != out.result.body[j].id
  {
    var ids := Rows(db.invoices.Keys);
    var rows := seq(|ids|, i requires 0 <= i < |ids| => Summary(ids[i], db.invoices[ids[i]].compCode));
    assert forall row: Summary :: row.id in db.invoices && row.compCode == db.invoices[row.id].compCode ==> row in rows by {
      forall row: Summary | row.id in db.invoices && row.compCode == db.invoices[row.id].compCode
        ensures row in rows
      {
        var i :| 0 <= i < |ids| && ids[i] == row.id;
        assert rows[i] == row;
      }
    }
    Reply(Ok(200, rows), db)
  }

  /** The inner join of invoice `id` with its company: nothing when either side is missing. */
  function Join(db: Db, id: InvoiceId): Option<JoinedRow> {
    if id in db.invoices && db.invoices[id].compCode in db.companies then
      var inv := db.invoices[id];
      var c := db.companies[inv.compCode];
      Some(JoinedRow(id, inv.amt, inv.paid, inv.addDate, inv.paidDate, inv.compCode, c.name, c.description))
    else
      None
  }

  /**
   The reshape of the joined row as the route writes it: the `comp_code` it
   destructures is not a column of the row, so the nested `code` is
   undefined, and the spread keeps `code`, `name` and `description` at the
   top level.
   */
  function Reshape(row: JoinedRow): Detail {
    var compCode: Option<Code> := None;
    Detail(row.id, row.amt, row.paid, row.addDate, row.paidDate,
           row.code, row.name, row.description,
           CompanyPart(compCode, row.name, row.description))
  }

  /** GET /invoices/:id */
  function Get(db: Db, idText: string, coerce: string -> Option<InvoiceId>): (out: Reply<Detail>)
    ensures out.db == db
    ensures coerce(idText).None? ==> out.result == Fail(StoreFailure)
    ensures coerce(idText).Some? ==>
      var id := coerce(idText).value;
      (out.result == Fail(Missing(idText)) <==>
         id !in db.invoices || db.invoices[id].compCode !in db.companies)
    ensures coerce(idText).Some? && coerce(idText).value in db.invoices &&
            db.invoices[coerce(idText).value].compCode in db.companies ==>
      var id := coerce(idText).value;
      var inv := db.invoices[id];
      var c := db.companies[inv.compCode];
      && out.result.Ok? && out.result.status == 200
      && out.result.body.id == id
      && out.result.body.amt == inv.amt
      && out.result.body.paid == inv.paid
      && out.result.body.addDate == inv.addDate
      && out.result.body.paidDate == inv.paidDate
      && out.result.body.company == CompanyPart(None, c.name, c.description)
      && out.result.body.code == inv.compCode
      && out.result.body.name == c.name
      && out.result.body.description == c.description
  {
    match coerce(idText)
    case None => Reply(Fail(StoreFailure), db)
    case Some(id) =>
      match Join(db, id)
      case None => Reply(Fail(Missing(idText)), db)
      case Some(row) => Reply(Ok(200, Reshape(row)), db)
  }

  /**
   POST /invoices. `nextId` is the key the store's id sequence hands out; the
   store refuses an unknown company (the foreign key) and a key already taken.
   */
  function Create(db: Db, compCode: Code, amt: int, nextId: InvoiceId, defaults: Defaults): (out: Reply<Record>)
    ensures compCode !in db.companies || nextId in db.invoices <==> out == Reply(Fail(StoreFailure), db)
    ensures compCode in db.companies && nextId !in db.invoices ==>
      var inv := Invoice(compCode, amt, defaults.paid, defaults.addDate, defaults.paidDate);
      && out.result == Ok(201, Record(nextId, compCode, amt, defaults.paid, defaults.addDate, defaults.paidDate))
      && out.db.companies == db.companies
      && out.db.invoices.Keys == db.invoices.Keys + {nextId}
      && out.db.invoices[nextId] == inv
      && SameExcept(db.invoices, out.db.invoices, nextId)
  {
    if compCode !in db.companies || nextId in db.invoices then
      Reply(Fail(StoreFailure), db)
    else
      var inv := Invoice(compCode, amt, defaults.paid, defaults.addDate, defaults.paidDate);
      Reply(Ok(201, AsRecord(nextId, inv)), db.(invoices := db.invoices[nextId := inv]))
  }

  /**
   The `paid_date` the update writes: the clock's `now` when `paid` is
   exactly true and the stored `paid` is falsy, null when `paid` is exactly
   false, and the stored date in every other case.
   */
  function PaidDate(requested: Paid, stored: Invoice, now: Date): Option<Date> {
    if requested == PaidTrue && !Truthy(stored.paid) then
      Some(now)
    else if requested == PaidFalse then
      None
    else
      stored.paidDate
  }

  /** PUT /invoices/:id; `now` is the clock read by the handler. */
  function Update(db: Db, idText: string, coerce: string -> Option<InvoiceId>, amt: int, paid: Paid, now: Date): (out: Reply<Record>)
    ensures coerce(idText).None? ==> out == Reply(Fail(StoreFailure), db)
    ensures coerce(idText).Some? && coerce(idText).value !in db.invoices ==>
      out == Reply(Fail(Missing(idText)), db)
    ensures coerce(idText).Some? && coerce(idText).value in db.invoices ==>
      var id := coerce(idText).value;
      var before := db.invoices[id];
      && out.db.companies == db.companies
      && out.db.invoices.Keys == db.invoices.Keys
      && SameExcept(db.invoices, out.db.invoices, id)
      && out.db.invoices[id] == Invoice(before.compCode, amt, paid, before.addDate, PaidDate(paid, before, now))
      && out.result == Ok(200, AsRecord(id, out.db.invoices[id]))
  {
    match coerce(idText)
    case None => Reply(Fail(StoreFailure), db)
    case Some(id) =>
      if id !in db.invoices then
        Reply(Fail(Missing(idText)), db)
      else
        var before := db.invoices[id];
        var after := before.(amt := amt, paid := paid, paidDate := PaidDate(paid, before, now));
        Reply(Ok(200, AsRecord(id, after)), db.(invoices := db.invoices[id := after]))
  }

  /** DELETE /invoices/:id */
  function Delete(db: Db, idText: string, coerce: string -> Option<InvoiceId>): (out: Reply<Deleted>)
    ensures coerce(idText).None? ==> out == Reply(Fail(StoreFailure), db)
    ensures coerce(idText).Some? && coerce(idText).value !in db.invoices ==>
      out == Reply(Fail(Missing(idText)), db)
    ensures coerce(idText).Some? && coerce(idText).value in db.invoices ==>
      var id := coerce(idText).value;
      && out.result == Ok(200, Deleted)
      && out.db.companies == db.companies
      && out.db.invoices.Keys == db.invoices.Keys - {id}
      && SameExcept(db.invoices, out.db.invoices, id)
  {
    match coerce(idText)
    case None => Reply(Fail(StoreFailure), db)
    case Some(id) =>
      if id !in db.invoices then
        Reply(Fail(Missing(idText)), db)
      else
        Reply(Ok(200, Deleted), db.(invoices := db.invoices - {id}))
  }

  /** The intended payment rule: an invoice carries a paid date exactly when it is paid. */
  ghost predicate Consistent(inv: Invoice) {
    inv.paidDate.Some? <==> inv.paid == PaidTrue
  }

  /** The two intended payment states of an invoice. */
  datatype PayState = Unpaid | PaidOn(date: Date)

  ghost function StateOf(inv: Invoice): PayState
    requires Consistent(inv)
  {
    if inv.paid == PaidTrue then PaidOn(inv.paidDate.value) else Unpaid
  }

  /**
   The intended payment transitions for an update with a boolean `paid`: unpaid to
   paid takes the update's time, paid to unpaid clears the date, an update
   that keeps the state keeps the date.
   */
  ghost function Intended(st: PayState, paid: bool, now: Date): PayState {
    match st
    case Unpaid => if paid then PaidOn(now) else Unpaid
    case PaidOn(t) => if paid then PaidOn(t) else Unpaid
  }

  /**
   On an invoice that keeps the invariant, an update with `paid` exactly true
   or exactly false keeps it and moves as the intended transitions do.
   */
  lemma BooleanUpdateFollowsPaymentStates(db: Db, idText: string, coerce: string -> Option<InvoiceId>, amt: int, paid: bool, now: Date)
    requires coerce(idText).Some? && coerce(idText).value in db.invoices
    requires Consistent(db.invoices[coerce(idText).value])
    ensures var id := coerce(idText).value;
      var after := Update(db, idText, coerce, amt, if paid then PaidTrue else PaidFalse, now).db.invoices[id];
      && Consistent(after)
      && StateOf(after) == Intended(StateOf(db.invoices[id]), paid, now)
  {
  }

  /**
   An update whose `paid` is neither true nor false writes that value back
   and keeps the stored date, so the invariant survives exactly when the
   invoice had no paid date: a paid invoice ends up unpaid with a date.
   */
  lemma OtherPaidKeepsDate(db: Db, idText: string, coerce: string -> Option<InvoiceId>, amt: int, now: Date)
    requires coerce(idText).Some? && coerce(idText).value in db.invoices
    ensures var id := coerce(idText).value;
      var after := Update(db, idText, coerce, amt, PaidOther, now).db.invoices[id];
      && after.paidDate == db.invoices[id].paidDate
      && !Truthy(after.paid)
      && (Consistent(after) <==> db.invoices[id].paidDate.None?)
  {
  }

  /**
   Marking an invoice paid twice keeps the date of the first transition; with
   the same amount the second update changes nothing at all.
   */
  lemma PaidTwiceKeepsFirstDate(db: Db, idText: string, coerce: string -> Option<InvoiceId>, amt1: int, amt2: int, now1: Date, now2: Date)
    requires coerce(idText).Some? && coerce(idText).value in db.invoices
    ensures var id := coerce(idText).value;
      var first := Update(db, idText, coerce, amt1, PaidTrue, now1);
      var second := Update(first.db, idText, coerce, amt2, PaidTrue, now2);
      && second.db.invoices[id].paidDate == first.db.invoices[id].paidDate
      && (!Truthy(db.invoices[id].paid) ==> first.db.invoices[id].paidDate == Some(now1))
      && (amt1 == amt2 ==> second == first)
  {
    var id := coerce(idText).value;
    var first := Update(db, idText, coerce, amt1, PaidTrue, now1);
    var second := Update(first.db, idText, coerce, amt2, PaidTrue, now2);
    if amt1 == amt2 {
      assert second.db.invoices == first.db.invoices;
    }
  }

  /**
   The life of an invoice: created with the store's defaults (unpaid, no
   date), paid at `t1`, paid again at `t2` without effect on the date, then
   marked unpaid, which clears the date.
   */
  lemma Lifecycle(db: Db, compCode: Code, amt: int, idText: string, coerce: string -> Option<InvoiceId>, t0: Date, t1: Date, t2: Date, t3: Date)
    requires compCode in db.companies
    requires coerce(idText).Some? && coerce(idText).value !in db.invoices
    ensures var id := coerce(idText).value;
      var created := Create(db, compCode, amt, id, Defaults(PaidFalse, t0, None));
      var paid := Update(created.db, idText, coerce, amt, PaidTrue, t1);
      var again := Update(paid.db, idText, coerce, amt, PaidTrue, t2);
      var unpaid := Update(again.db, idText, coerce, amt, PaidFalse, t3);
      && created.result.Ok? && created.result.status == 201
      && created.result.body.paid == PaidFalse && created.result.body.paidDate == None
      && paid.result.Ok? && paid.result.body.paidDate == Some(t1)
      && again.result.Ok? && again.result.body.paidDate == Some(t1)
      && unpaid.result.Ok? && unpaid.result.body.paidDate == None
  {
  }

  /** An invoice just created reads back joined with its company. */
  lemma CreateThenGet(db: Db, compCode: Code, amt: int, idText: string, coerce: string -> Option<InvoiceId>, defaults: Defaults)
    requires coerce(idText).Some?
    requires Create(db, compCode, amt, coerce(idText).value, defaults).result.Ok?
    ensures var got := Get(Create(db, compCode, amt, coerce(idText).value, defaults).db, idText, coerce).result;
      && got.Ok?
      && got.body.amt == amt
      && got.body.company.name == db.companies[compCode].name
      && got.body.company.description == db.companies[compCode].description
  {
  }

  /** After a successful delete the invoice is gone: a read says so. */
  lemma DeleteThenGet(db: Db, idText: string, coerce: string -> Option<InvoiceId>)
    requires coerce(idText).Some? && coerce(idText).value in db.invoices
    ensures Get(Delete(db, idText, coerce).db, idText, coerce).result == Fail(Missing(idText))
  {
  }

  /** No invoice handler breaks the foreign key of the invoices. */
  lemma WritesKeepReferential(db: Db, compCode: Code, amt: int, nextId: InvoiceId, defaults: Defaults,
                              idText: string, coerce: string -> Option<InvoiceId>, paid: Paid, now: Date)
    requires Referential(db)
    ensures Referential(Create(db, compCode, amt, nextId, defaults).db)
    ensures Referential(Update(db, idText, coerce, amt, paid, now).db)
    ensures Referential(Delete(db, idText, coerce).db)
  {
  }
}

=== FILE: tables.dfy ===
/** Optional values: `None` stands for SQL NULL and JavaScript `undefined`. */
module Wrappers {

  datatype Option<+T> = None | Some(value: T)
}

/**
 The abstract two-table store behind both routers, and the shapes every
 handler shares: the error a handler raises, the result it answers with and
 the store it leaves behind.
 */
module Tables {
  import opened Wrappers

  /** A company's primary key: the slug of its name. */
  type Code = string

  /** An invoice's primary key, handed out by the store. */
  type InvoiceId = int

  /** A timestamp as the store or the clock hands it out. */
  type Date = int

  /** A row of `companies`, without its key. */
  datatype Company = Company(name: string, description: Option<string>)

  /**
   The `paid` value of a request body, which the invoice UPDATE writes back
   as it came: exactly `true`, exactly `false`, or omitted or null (stored
   as NULL).
   */
  datatype Paid = PaidTrue | PaidFalse | PaidOther

  /** JavaScript truthiness of a stored `paid` read back from the store. */
  predicate Truthy(p: Paid) {
    p.PaidTrue?
  }

  /** A row of `invoices`, without its key. */
  datatype Invoice = Invoice(compCode: Code, amt: int, paid: Paid, addDate: Date, paidDate: Option<Date>)

  /** The whole store: the `companies` and `invoices` tables keyed by primary key. */
  datatype Db = Db(companies: map<Code, Company>, invoices: map<InvoiceId, Invoice>)

  /**
   What a handler hands to the error pipeline: an ExpressError carrying a
   message and 404, or whatever the store threw.
   */
  datatype Error = NotFound(message: string) | StoreFailure {

    /** The HTTP status the error responder sets. */
    function Status(): int {
      if NotFound? then 404 else 500
    }
  }

  /** The answer of one request: a success body with its HTTP status, or an error. */
  datatype Result<+T> = Ok(status: int, body: T) | Fail(error: Error)

  /** A handler's answer together with the store it leaves behind. */
  datatype Reply<+T> = Reply(result: Result<T>, db: Db)

  /** The body `{status: "deleted"}`. */
  datatype Deleted = Deleted

  /** `m'` agrees with `m` on every key other than `k`. */
  ghost predicate SameExcept<K(!new), V>(m: map<K, V>, m': map<K, V>, k: K) {
    forall j :: j != k ==> (j in m <==> j in m') && (j in m ==> m[j] == m'[j])
  }

  /** Every invoice belongs to a stored company (the foreign key of `invoices.comp_code`). */
  ghost predicate Referential(db: Db) {
    forall id :: id in db.invoices ==> db.invoices[id].compCode in db.companies
  }

  /**
   The rows a SELECT returns for the keys `keys`, in an order the store
   chooses: every key exactly once.
   */
  ghost function Rows<K(!new)>(keys: set<K>): (r: seq<K>)
    ensures |r| == |keys|
    ensures forall k :: k in r <==> k in keys
    ensures forall i, j :: 0 <= i < j < |r| ==> r[i] != r[j]
    decreases keys
  {
    if keys == {} then
      []
    else
      var k :| k in keys;
      [k] + Rows(keys - {k})
  }
}
